=== FILE: README.md ===
# External-issue forms, modelled in Dafny

Sentry's web UI lets a user create or link a ticket in an external issue
tracker (Jira, GitHub, …) from an issue page or from an issue-alert rule. The
forms get their fields from a remote configuration document. Some fields are
*dynamic* (`updatesForm`): changing one re-requests the configuration, with
the current dynamic values as query parameters. Fields that have a `url`
load their options from that URL while the user types.

This project models the logic of four React components, with the rendering
stripped away:

- `common.dfy` (`Common`): form values, field descriptors (`Field`), the
  `{value, label}` option (`Choice`), an outgoing request as a path plus a
  query map (`Request`), the errors the forms throw, and a mutable plain
  object (`PlainObject`) for JavaScript objects that are shared and changed
  in place.
- `external_issues.dfy` (`ExternalIssues`): the shared base form. It covers
  the action→config dispatch, the dynamic-field map, the refetch query,
  option loading and the initial form data. It also holds the class
  `ExternalIssueFormModal`, which carries the form state (`action`,
  `integrationDetails`, `dynamicFieldValues`, `reloading`, `error`,
  `remainingRequests`) and its transitions.
- `ticket_rule.dfy` (`TicketRule`): the alert-rule ticket form. It covers
  field names, whitelisting of submitted data, option lookups from the rule's
  project and issue type, the two read-only fields put in front, and the
  modal flag.
- `group_issue_form.dfy` (`GroupIssueForm`): the issue page's form. It covers
  the per-action tables, the HTTP method, the endpoints, the tab flags and
  the config selection in `renderBody`.
- `snooze.dfy` (`Snooze`): the snooze confirmation modal and its durations.

The ticket form repeats two pieces of the shared form word for word: its
`getFieldProps` (ticketRuleForm.tsx:176-187) and the `?`/`&` joiner of its
option lookup (ticketRuleForm.tsx:151-152). The shared `GetFieldProps` and
`LookupRequest` stand for both copies, and `TicketRuleForm.GetOptions` builds
its lookup through `LookupRequest`.

Network calls are not performed. A config refetch appends a `Request` to the
form's `requests`. An option lookup is returned as a `Lookup(request)`. How
the fetch ended is an input to `SettleLookup`. Callbacks the components
receive as props (`onSubmitAction`, `onSnooze`) are recorded as the sequence
of arguments they received.

Things the code does that a reader might not expect, all modelled as written:

- `getConfigName` accepts `'create'` and `'update'`. The Link tab stores
  `'link'`, so the issue page's form throws `illegal action` once that tab is
  clicked (see Findings).
- `onRequestSuccess` recomputes the dynamic values only while
  `dynamicFieldValues` is falsy. Its default is `{}`, which is truthy, so
  values from an earlier configuration are kept. Keeping the values in step
  with the configuration would need a recomputation after every successful
  fetch, which drops stale keys. The code does not do that, and the model
  follows the code.
- `onFieldChange` guards with JavaScript's `in`, which also sees the members
  every object inherits (`toString`, `constructor`, …). A change to a field
  named like one of them passes the guard. `HasProperty` models this.
- `cleanData` adds the rule's `integration` whenever the rule object has that
  property, in every action. A whitelisted `integration` entry in the
  submitted data overwrites it.
- `render` puts the read-only title and description fields in front of a
  copy of the configured fields. `getNames` reads the configured fields
  themselves, so `cleanData` drops `title` and `description` unless a
  configured field has that name (`AddedFieldsAreNotSubmitted`).
- The ticket form's option lookup sends the rule's `project` and `issuetype`,
  not the dynamic field values.
- `renderForm` fills in the object it is given as `initialData` in place. For
  the ticket form that object is the alert rule's own `instance`, so
  `TicketRuleForm.Render` changes the rule object.

## Model

Paths are relative to the repository root.

| member | source | states |
|---|---|---|
| `ExternalIssues.ConfigName` | src/sentry/static/sentry/app/components/externalIssues/abstractExternalIssueForm.tsx:61-72 | 'create' gives createIssueConfig and 'update' gives linkIssueConfig; every other action is an IllegalAction error |
| `ExternalIssues.LinkActionIsIllegal` | src/sentry/static/sentry/app/components/externalIssues/abstractExternalIssueForm.tsx:161-163 | 'link' is an action `handleClick` can store, yet `getConfigName` rejects it |
| `ExternalIssues.IntendedConfigName` | src/sentry/static/sentry/app/components/externalIssues/abstractExternalIssueForm.tsx:64-71 | corrected dispatch: agrees with the written one wherever that succeeds, and also maps 'link' to linkIssueConfig |
| `ExternalIssues.TabActionsResolveWhenIntended` | src/sentry/static/sentry/app/components/group/externalIssueForm.tsx:123-127 | under the corrected dispatch both tab actions select a config: create→createIssueConfig, link→linkIssueConfig |
| `ExternalIssues.ActiveConfig` | src/sentry/static/sentry/app/components/externalIssues/abstractExternalIssueForm.tsx:77-79 | the active config list exists exactly when the action is dispatchable and the document has that config; otherwise IllegalAction or MissingConfig (the TypeError on `undefined`) |
| `ExternalIssues.DynamicFieldMapSnoc` | src/sentry/static/sentry/app/components/externalIssues/abstractExternalIssueForm.tsx:82-86 | appending a field changes the map only by that field's `name → default`, and only if it has `updatesForm` |
| `ExternalIssues.DynamicFieldMapKeys` | src/sentry/static/sentry/app/components/externalIssues/abstractExternalIssueForm.tsx:83-85 | the map's keys are exactly the names of the fields with `updatesForm`; other fields never appear |
| `ExternalIssues.DynamicFieldMapValues` | src/sentry/static/sentry/app/components/externalIssues/abstractExternalIssueForm.tsx:82-86 | each key maps to the `default` of the last `updatesForm` field with that name (`Object.fromEntries` keeps the later entry) |
| `ExternalIssues.DynamicFieldMapSpec` | src/sentry/static/sentry/app/components/externalIssues/abstractExternalIssueForm.tsx:74-87 | filter, map and fromEntries together give exactly the map that `IsDynamicFieldMap` describes |
| `ExternalIssues.DynamicFieldMapUnique` | src/sentry/static/sentry/app/components/externalIssues/abstractExternalIssueForm.tsx:82-86 | that description determines the map: two maps that fit it are equal |
| `ExternalIssues.DynamicFieldsOf` | src/sentry/static/sentry/app/components/externalIssues/abstractExternalIssueForm.tsx:74-87 | `getDynamicFields` fails exactly when the active config cannot be found; otherwise it returns that config's dynamic-field map |
| `ExternalIssues.RefetchQuery` | src/sentry/static/sentry/app/components/externalIssues/abstractExternalIssueForm.tsx:45-46 | the query holds `action` plus every dynamic value; dynamic values win, so a dynamic key `action` overrides the action |
| `ExternalIssues.StaticOptions` | src/sentry/static/sentry/app/components/externalIssues/abstractExternalIssueForm.tsx:119-123 | the choices become `{value, label}` options of the same length and order; no choices give no options |
| `ExternalIssues.Separator` | src/sentry/static/sentry/app/components/externalIssues/abstractExternalIssueForm.tsx:146-147 | the separator is '&' exactly when the URL contains '?', and '?' otherwise |
| `ExternalIssues.LookupRequest` | src/sentry/static/sentry/app/components/externalIssues/abstractExternalIssueForm.tsx:140-147 | the path is the URL ('' when absent) followed by '&' when the URL has a '?' and by '?' when it has none; the query is the base plus `field` and `query`, which override base keys with those names |
| `ExternalIssues.LoadOptions` | src/sentry/static/sentry/app/components/externalIssues/abstractExternalIssueForm.tsx:117-132 | empty input answers at once with the static options and sends nothing; any other input becomes a lookup |
| `ExternalIssues.SettleLookup` | src/sentry/static/sentry/app/components/externalIssues/abstractExternalIssueForm.tsx:150-155 | only a failed fetch rejects; a non-OK response resolves with no options, and an OK response resolves with the body |
| `ExternalIssues.GetFieldProps` | src/sentry/static/sentry/app/components/externalIssues/abstractExternalIssueForm.tsx:165-176 | a field gets the asynchronous, non-caching, autoloading loader exactly when it has a URL |
| `ExternalIssues.InitialValue` | src/sentry/static/sentry/app/components/externalIssues/abstractExternalIssueForm.tsx:206 | a `multiple` field starts as '' and any other field starts at its default |
| `ExternalIssues.ReduceInitialData` | src/sentry/static/sentry/app/components/externalIssues/abstractExternalIssueForm.tsx:201-211 | existing keys keep their values; each other field name is added once, and the first field with that name decides its value |
| `ExternalIssues.InitialDataUnique` | src/sentry/static/sentry/app/components/externalIssues/abstractExternalIssueForm.tsx:201-211 | that description determines the initial data completely |
| `ExternalIssues.RenderFormInitialData` | src/sentry/static/sentry/app/components/externalIssues/abstractExternalIssueForm.tsx:199-211 | the accumulator is the caller's `initialData` object itself, filled in place, or a fresh object when none is given |
| `ExternalIssues.ExternalIssueFormModal.constructor` | src/sentry/static/sentry/app/components/externalIssues/abstractExternalIssueForm.tsx:33-40 | default state: action 'create', an empty config document, dynamic values `{}` |
| `ExternalIssues.ExternalIssueFormModal.RefetchConfig` | src/sentry/static/sentry/app/components/externalIssues/abstractExternalIssueForm.tsx:44-59 | sends exactly one GET to the form's endpoint, carrying the refetch query of the current state |
| `ExternalIssues.ExternalIssueFormModal.GetDynamicFields` | src/sentry/static/sentry/app/components/externalIssues/abstractExternalIssueForm.tsx:77-79 | reads the config from the given data when there is any, else from the stored document, and returns that config's dynamic-field map; when the config cannot be found it fails with the same error `ActiveConfig` gives (IllegalAction for a bad action, MissingConfig for the TypeError on an undefined list) |
| `ExternalIssues.ExternalIssueFormModal.OnRequestSuccess` | src/sentry/static/sentry/app/components/externalIssues/abstractExternalIssueForm.tsx:89-95 | replaces the dynamic values only for the `integrationDetails` request and only while no value map is held; otherwise nothing changes |
| `ExternalIssues.ExternalIssueFormModal.OnFieldChange` | src/sentry/static/sentry/app/components/externalIssues/abstractExternalIssueForm.tsx:97-115 | a label that fails the `in` test changes nothing and sends nothing. A label that passes sets only that entry, sets reloading, clears error, sets remainingRequests to 1, disables submit and refetches. If the config cannot be found, the error propagates and nothing changes |
| `ExternalIssues.ExternalIssueFormModal.HandleClick` | src/sentry/static/sentry/app/components/externalIssues/abstractExternalIssueForm.tsx:161-163 | stores the clicked tab's action |
| `ExternalIssues.ExternalIssueFormModal.DefaultFormProps` | src/sentry/static/sentry/app/components/externalIssues/abstractExternalIssueForm.tsx:190-197 | submission is disabled exactly while reloading |
| `ExternalIssues.ExternalIssueFormModal.GetOptions` | src/sentry/static/sentry/app/components/externalIssues/abstractExternalIssueForm.tsx:117-151 | empty input answers with the static options. A lookup goes to the field's URL followed by '&' when it has a '?' and by '?' otherwise. Its query holds every current dynamic value (none when there are none) plus `field` and `query`, and those two win over a dynamic value with the same name |
| `TicketRule.NamesOfSpec` | src/sentry/static/sentry/app/views/settings/projectAlerts/issueEditor/ticketRuleForm.tsx:72-80 | a name is listed exactly when some field carries it; fields without a name are skipped, so there are at most as many names as fields |
| `TicketRule.NamesOfAllNamed` | src/sentry/static/sentry/app/views/settings/projectAlerts/issueEditor/ticketRuleForm.tsx:74-78 | when every field has a name, the list is those names in iteration order |
| `TicketRule.NamesOfAppend` | src/sentry/static/sentry/app/views/settings/projectAlerts/issueEditor/ticketRuleForm.tsx:74-78 | the names of two field lists put together are the two name lists put together |
| `TicketRule.AddedFieldsAreNotSubmitted` | src/sentry/static/sentry/app/views/settings/projectAlerts/issueEditor/ticketRuleForm.tsx:72-80 | `getNames` reads the configured fields, not the copy `addFields` grows, so unless a configured field is named 'title' or 'description', `cleanData` drops those two keys from what it submits |
| `TicketRule.Cleaned` | src/sentry/static/sentry/app/views/settings/projectAlerts/issueEditor/ticketRuleForm.tsx:93-107 | output keys are the whitelisted input keys plus `integration` when the rule has it, so they lie within names ∪ {integration}. Whitelisted values are copied unchanged. The rule's `integration` survives unless a whitelisted one is submitted |
| `TicketRule.LookupBase` | src/sentry/static/sentry/app/views/settings/projectAlerts/issueEditor/ticketRuleForm.tsx:143-147 | the lookup base is the rule's `project` and `issuetype` (undefined when absent) and nothing else |
| `TicketRule.EndPointString` | src/sentry/static/sentry/app/views/settings/projectAlerts/issueEditor/ticketRuleForm.tsx:82-85 | the path is `/organizations/{slug}/integrations/{integration}/` |
| `TicketRule.Endpoints` | src/sentry/static/sentry/app/views/settings/projectAlerts/issueEditor/ticketRuleForm.tsx:49-57 | the config is loaded from the endpoint path with `?action=create`, whatever the action |
| `TicketRule.TicketRuleForm.constructor` | src/sentry/static/sentry/app/views/settings/projectAlerts/issueEditor/ticketRuleForm.tsx:40-47 | default state: modal closed, action 'create', dynamic values `{}` |
| `TicketRule.TicketRuleForm.OpenModal` | src/sentry/static/sentry/app/views/settings/projectAlerts/issueEditor/ticketRuleForm.tsx:59-64 | the modal is shown afterwards |
| `TicketRule.TicketRuleForm.CloseModal` | src/sentry/static/sentry/app/views/settings/projectAlerts/issueEditor/ticketRuleForm.tsx:66-70 | the modal is hidden afterwards |
| `TicketRule.TicketRuleForm.GetNames` | src/sentry/static/sentry/app/views/settings/projectAlerts/issueEditor/ticketRuleForm.tsx:72-80 | the loop returns the names of the named fields in iteration order |
| `TicketRule.TicketRuleForm.CleanData` | src/sentry/static/sentry/app/views/settings/projectAlerts/issueEditor/ticketRuleForm.tsx:87-107 | the loop's result equals `Cleaned` for the form's names, the rule object and the data, whatever order the entries are visited in |
| `TicketRule.TicketRuleForm.OnFormSubmit` | src/sentry/static/sentry/app/views/settings/projectAlerts/issueEditor/ticketRuleForm.tsx:110-118 | `onSubmitAction` receives exactly the cleaned data once, and the modal ends closed |
| `TicketRule.TicketRuleForm.GetOptions` | src/sentry/static/sentry/app/views/settings/projectAlerts/issueEditor/ticketRuleForm.tsx:120-164 | empty input answers with the static options. A lookup's query has exactly `project`, `issuetype`, `field` and `query`, with project and issue type taken from the rule, `field` the field's name and `query` the input. The path is the field's URL followed by '&' or '?' |
| `TicketRule.TicketRuleForm.AddFields` | src/sentry/static/sentry/app/views/settings/projectAlerts/issueEditor/ticketRuleForm.tsx:189-206 | the list becomes `[title, description]` followed by the original entries in order; both new fields are disabled |
| `TicketRule.TicketRuleForm.Render` | src/sentry/static/sentry/app/views/settings/projectAlerts/issueEditor/ticketRuleForm.tsx:223-243 | the form renders the two read-only fields followed by the configured ones, and the rule object becomes the initial data built over them |
| `GroupIssueForm.SuccessMessage` | src/sentry/static/sentry/app/components/group/externalIssueForm.tsx:15-18 | a message exists exactly for 'link' and 'create', with the table's text |
| `GroupIssueForm.SubmitLabel` | src/sentry/static/sentry/app/components/group/externalIssueForm.tsx:20-23 | a label exists exactly for 'link' and 'create', with the table's text |
| `GroupIssueForm.ApiMethod` | src/sentry/static/sentry/app/components/group/externalIssueForm.tsx:112 | POST exactly for 'create', PUT for every other action |
| `GroupIssueForm.EndPointString` | src/sentry/static/sentry/app/components/group/externalIssueForm.tsx:101-104 | the path is `/groups/{group.id}/integrations/{integration.id}/` |
| `GroupIssueForm.Endpoints` | src/sentry/static/sentry/app/components/group/externalIssueForm.tsx:68-77 | the config is loaded from the endpoint path with `?action={action}` |
| `GroupIssueForm.GetFormProps` | src/sentry/static/sentry/app/components/group/externalIssueForm.tsx:106-117 | label and method follow the action, submission is disabled while reloading, and the submit endpoint is the load endpoint without its query |
| `GroupIssueForm.TabAction` | src/sentry/static/sentry/app/components/group/externalIssueForm.tsx:123-127 | the Create tab stores 'create' and the Link tab stores 'link' |
| `GroupIssueForm.IsActive` | src/sentry/static/sentry/app/components/group/externalIssueForm.tsx:123-126 | Create is active exactly for 'create' and Link exactly for 'link' |
| `GroupIssueForm.ClickedTabIsTheOnlyActive` | src/sentry/static/sentry/app/components/group/externalIssueForm.tsx:119-131 | after a click, the clicked tab is active and the other is not |
| `GroupIssueForm.LinkTabCannotRender` | src/sentry/static/sentry/app/components/group/externalIssueForm.tsx:133-137 | with action 'link', config selection throws IllegalAction, whatever the document holds. The same action still has a label, a message and PUT |
| `GroupIssueForm.CreateTabRenders` | src/sentry/static/sentry/app/components/group/externalIssueForm.tsx:133-137 | with action 'create', the body renders the document's createIssueConfig |
| `Snooze.OfferedDurations` | src/sentry/static/sentry/app/components/issues/snoozeAction.tsx:70-88 | the choices are 30, 120 and 1440 minutes, then "Forever", which passes no duration |
| `Snooze.ToggleTwiceRestores` | src/sentry/static/sentry/app/components/issues/snoozeAction.tsx:32-39 | two toggles restore the flag |
| `Snooze.SnoozeAction.constructor` | src/sentry/static/sentry/app/components/issues/snoozeAction.tsx:28-30 | the modal starts closed |
| `Snooze.SnoozeAction.ToggleModal` | src/sentry/static/sentry/app/components/issues/snoozeAction.tsx:32-39 | a disabled button leaves the flag unchanged; otherwise the flag flips |
| `Snooze.SnoozeAction.CloseModal` | src/sentry/static/sentry/app/components/issues/snoozeAction.tsx:41-43 | the modal is closed afterwards, whatever it was, so a second call changes nothing |
| `Snooze.SnoozeAction.OnSnooze` | src/sentry/static/sentry/app/components/issues/snoozeAction.tsx:45-48 | `props.onSnooze` receives exactly the chosen duration, and the modal ends closed |

## Findings

| source | as written | input that shows it | evidently intended | confidence | as-written member | corrected member |
|---|---|---|---|---|---|---|
| src/sentry/static/sentry/app/components/externalIssues/abstractExternalIssueForm.tsx:61-72 | `getConfigName` maps 'update' to the link config and throws for every other action | click the Link tab: `handleClick('link')` stores 'link', and `renderBody` (group/externalIssueForm.tsx:133-137) throws `illegal action` | the Link tab's 'link' selects linkIssueConfig | high (not executed) | `ExternalIssues.LinkActionIsIllegal` | `ExternalIssues.IntendedConfigName` |

The rest of the model keeps the dispatch as written (`ConfigName`, used by
`ActiveConfig`, `DynamicFieldsOf` and the controller), so that it describes
what the forms do today. `GroupIssueForm.LinkTabCannotRender` shows the
consequence on the issue page. `TabActionsResolveWhenIntended` shows that the
corrected dispatch resolves both tabs.

## Left out

- Rendering: JSX, `Modal`, `NavTabs`, `Button`, styled components, the
  `FieldFromConfig` widgets, `renderNavTabs`/`renderBodyText` markup, and the
  `t`/`tct` translations. The table texts are kept untranslated.
- The network: `this.api.request`, `fetch`, `response.json()`, and when
  promises settle. A refetch is a recorded `Request`. A lookup is a returned
  `Request`. The fetch's outcome is an input to `SettleLookup`.
- The 200 ms trailing `debounce` of the option loader. This is timer
  behaviour inside lodash. Every non-empty `getOptions` call is modelled as
  the call that fires, and calls the debounce drops are not modelled.
- `queryString.stringify`. The query is kept as a key→value map. How undefined
  values and arrays are encoded is not modelled.
- `AsyncComponent`, which is not part of this model: storing the fetched
  document in `integrationDetails` (`handleRequestSuccess`), `handleError`,
  `getEndpoints` plumbing and its default `reloading`/`error`/`remainingRequests`.
  The constructors take those three defaults as parameters.
- Telemetry and feedback with no behaviour to state: Sentry transactions
  (`startTransaction`, `finish`, `handlePreSubmit`, `handleSubmitError`,
  `onLoadAllEndpointsSuccess`, `onRequestError`), `addSuccessMessage` toasts,
  `console.log`, `preventDefault`/`stopPropagation`.
- `onSubmitSuccess` of the issue page's form only passes the response and a
  toast callback on. Its message is modelled by `SuccessMessage`.
- The ticket form's `getFormProps` (fixed labels and handler wiring) and the
  base form's empty `getFormProps`, both presentation.
- React's asynchronous `setState`: state updates are plain field
  assignments, applied before the `refetchConfig` callback runs.
- Object aliasing of `dynamicFieldValues`: `onFieldChange` writes into the
  state's own object. The model replaces the field's map value with the
  updated map. Writing the key `__proto__` is treated as an ordinary key.
- `for…in` iteration order. `formFields` is given as the object's values in
  the order the loop visits them.
- Template-literal conversion of `instance.integration` in the ticket form's
  endpoint. The caller passes the integration as text.
- JavaScript numbers are modelled as integers; floating point is out of scope.

=== FILE: common.dfy ===
/**
 * Values and records shared by the external-issue forms: the JSON-like
 * values a form field holds, the field descriptors the remote
 * configuration sends, and the outgoing requests the forms would issue.
 */
module Common {

  datatype Option<+T> = None | Some(value: T)

  datatype Result<+T, +E> = Ok(value: T) | Err(error: E)

  /** A form value as the browser sees it (numbers are kept integral). */
  datatype Value =
    | Undefined
    | Null
    | Str(s: string)
    | Num(n: int)
    | Bool(b: bool)
    | Arr(items: seq<Value>)

  /**
   * One field descriptor (IssueConfigField / FormField). A missing `name`
   * property is `None`; a missing or empty `url` is "" (both are falsy).
   */
  datatype Field = Field(
    name: Option<string>,
    labelText: string,
    kind: string,
    defaultValue: Value,
    choices: Option<seq<(Value, Value)>>,
    url: string,
    updatesForm: bool,
    required: bool,
    multiple: bool,
    disabled: bool)

  /** The `{value, label}` option a select widget shows (`label` is a Dafny keyword). */
  datatype Choice = Choice(value: Value, labelText: Value)

  /** An outgoing GET request: the path and the query parameters it carries. */
  datatype Request = Request(path: string, query: map<string, Value>)

  /** What the form code throws. */
  datatype FormError =
    | IllegalAction                 // `new Error('illegal action')`
    | MissingConfig(name: string)   // TypeError: the config list is undefined

  /** The property key a field's `name` becomes when used to index an object. */
  function Key(f: Field): (k: string)
    ensures f.name.Some? ==> k == f.name.value
    ensures f.name.None? ==> k == "undefined"
  {
    match f.name
    case Some(n) => n
    case None => "undefined"
  }

  /** The value `field.name` has when it is put into a query object. */
  function NameValue(f: Field): (v: Value)
    ensures v.Str? <==> f.name.Some?
    ensures f.name.Some? ==> v.s == f.name.value
  {
    match f.name
    case Some(n) => Str(n)
    case None => Undefined
  }

  /** `obj.key` on a plain object: `undefined` when the key is absent. */
  function Get(m: map<string, Value>, key: string): (v: Value)
    ensures key in m ==> v == m[key]
    ensures key !in m ==> v == Undefined
  {
    if key in m then m[key] else Undefined
  }

  /** `{...o}` where `o` may be undefined: spreading undefined adds nothing. */
  function Spread(o: Option<map<string, Value>>): (m: map<string, Value>)
    ensures o.Some? ==> m == o.value
    ensures o.None? ==> m == map[]
  {
    if o.Some? then o.value else map[]
  }

  /** A plain JavaScript object that more than one owner may hold and mutate. */
  class PlainObject {
    var entries: map<string, Value>

    constructor (entries: map<string, Value>)
      ensures this.entries == entries
    {
      this.entries := entries;
    }
  }
}

=== FILE: external_issues.dfy ===
/**
 * The shared controller behind every external-issue form
 * (components/externalIssues/abstractExternalIssueForm.tsx): the
 * action-to-config dispatch, the dynamic-field map, the refetch query,
 * option loading for autocomplete fields and the initial form data.
 */
module ExternalIssues {
  import opened Common

  /** The configuration document: config name -> ordered field descriptors. */
  type IssueConfig = map<string, seq<Field>>

  // ---------------------------------------------------------------------
  // Action dispatch

  /** `getConfigName`: only 'create' and 'update' name a config; anything else throws. */
  function ConfigName(action: string): (r: Result<string, FormError>)
    ensures r.Ok? <==> action == "create" || action == "update"
    ensures action == "create" ==> r.Ok? && r.value == "createIssueConfig"
    ensures action == "update" ==> r.Ok? && r.value == "linkIssueConfig"
    ensures r.Err? ==> r.error == IllegalAction
  {
    if action == "create" then Ok("createIssueConfig")
    else if action == "update" then Ok("linkIssueConfig")
    else Err(IllegalAction)
  }

  /** The actions the Create and Link tabs store through `handleClick`. */
  predicate IsTabAction(action: string) {
    action == "create" || action == "link"
  }

  /** The Link tab's action is one that `getConfigName` rejects. */
  lemma LinkActionIsIllegal()
    ensures IsTabAction("link")
    ensures ConfigName("link") == Err(IllegalAction)
  {
  }

  /**
   * The dispatch the tabs evidently rely on: the Link tab's 'link' selects
   * the link config just as the older 'update' does.
   */
  function IntendedConfigName(action: string): (r: Result<string, FormError>)
    ensures r.Ok? <==> IsTabAction(action) || action == "update"
    ensures ConfigName(action).Ok? ==> r == ConfigName(action)
    ensures action == "link" ==> r == Ok("linkIssueConfig")
  {
    if action == "link" then Ok("linkIssueConfig") else ConfigName(action)
  }

  /** Under the intended dispatch every action a tab can store selects a config. */
  lemma TabActionsResolveWhenIntended(action: string)
    requires IsTabAction(action)
    ensures IntendedConfigName(action).Ok?
    ensures IntendedConfigName(action).value ==
            (if action == "create" then "createIssueConfig" else "linkIssueConfig")
  {
  }

  /**
   * `integrationDetails[getConfigName()]`, with the TypeError that using an
   * undefined config list raises.
   */
  function ActiveConfig(details: IssueConfig, action: string): (r: Result<seq<Field>, FormError>)
    ensures r.Ok? <==> ConfigName(action).Ok? && ConfigName(action).value in details
    ensures r.Ok? ==> r.value == details[ConfigName(action).value]
    ensures ConfigName(action).Err? ==> r == Err(IllegalAction)
    ensures ConfigName(action).Ok? && ConfigName(action).value !in details ==>
              r == Err(MissingConfig(ConfigName(action).value))
  {
    match ConfigName(action)
    case Err(e) => Err(e)
    case Ok(name) => if name in details then Ok(details[name]) else Err(MissingConfig(name))
  }

  // ---------------------------------------------------------------------
  // Dynamic fields: filter on updatesForm, map to [name, default], fromEntries

  /** `config.filter(field => field.updatesForm)` */
  function UpdatingFields(fields: seq<Field>): seq<Field>
    decreases |fields|
  {
    if fields == [] then []
    else
      var last := fields[|fields| - 1];
      UpdatingFields(fields[..|fields| - 1]) + (if last.updatesForm then [last] else [])
  }

  /** `.map(field => [field.name, field.default])` */
  function Entries(fields: seq<Field>): seq<(string, Value)>
    decreases |fields|
  {
    if fields == [] then []
    else
      var last := fields[|fields| - 1];
      Entries(fields[..|fields| - 1]) + [(Key(last), last.defaultValue)]
  }

  /** `Object.fromEntries`: a later entry overwrites an earlier one with the same key. */
  function FromEntries(entries: seq<(string, Value)>): map<string, Value>
    decreases |entries|
  {
    if entries == [] then map[]
    else
      var last := entries[|entries| - 1];
      FromEntries(entries[..|entries| - 1])[last.0 := last.1]
  }

  /** The dynamic-field map of one config list. */
  function DynamicFieldMap(fields: seq<Field>): map<string, Value> {
    FromEntries(Entries(UpdatingFields(fields)))
  }

  /** Field `i` sets the form and has key `k`. */
  predicate IsDynamicAt(fields: seq<Field>, i: int, k: string) {
    0 <= i < |fields| && fields[i].updatesForm && Key(fields[i]) == k
  }

  /** Field `i` sets the form, has key `k`, and no later form-setting field has key `k`. */
  predicate IsLastDynamic(fields: seq<Field>, i: int, k: string) {
    && IsDynamicAt(fields, i, k)
    && forall j :: i < j < |fields| ==> !IsDynamicAt(fields, j, k)
  }

  /** The keys of `m` are exactly the keys of the form-setting fields. */
  ghost predicate HasDynamicKeys(fields: seq<Field>, m: map<string, Value>) {
    forall k :: k in m <==> exists i :: IsDynamicAt(fields, i, k)
  }

  /** Each key of `m` maps to the default of the last form-setting field with that key. */
  ghost predicate HasDynamicValues(fields: seq<Field>, m: map<string, Value>) {
    forall k :: k in m ==> exists i :: IsLastDynamic(fields, i, k) && m[k] == fields[i].defaultValue
  }

  /**
   * What the dynamic-field map of `fields` is, independently of how it is
   * computed.
   */
  ghost predicate IsDynamicFieldMap(fields: seq<Field>, m: map<string, Value>) {
    HasDynamicKeys(fields, m) && HasDynamicValues(fields, m)
  }

  /** Appending one field updates the map by at most that field's entry. */
  lemma DynamicFieldMapSnoc(fields: seq<Field>, f: Field)
    ensures DynamicFieldMap(fields + [f]) ==
            if f.updatesForm then DynamicFieldMap(fields)[Key(f) := f.defaultValue]
            else DynamicFieldMap(fields)
  {
    var all := fields + [f];
    assert all[..|all| - 1] == fields;
    var u := UpdatingFields(fields);
    if f.updatesForm {
      assert UpdatingFields(all) == u + [f];
      assert (u + [f])[..|u|] == u;
      var e := Entries(u);
      assert Entries(u + [f]) == e + [(Key(f), f.defaultValue)];
      assert (e + [(Key(f), f.defaultValue)])[..|e|] == e;
    } else {
      assert UpdatingFields(all) == u;
    }
  }

  /** The keys of the computed map are those of the form-setting fields. */
  lemma {:induction false} DynamicFieldMapKeys(fields: seq<Field>)
    ensures HasDynamicKeys(fields, DynamicFieldMap(fields))
    decreases |fields|
  {
    if fields != [] {
      var n := |fields| - 1;
      var init, f := fields[..n], fields[n];
      assert fields == init + [f];
      DynamicFieldMapSnoc(init, f);
      DynamicFieldMapKeys(init);
      var m0, m := DynamicFieldMap(init), DynamicFieldMap(fields);
      forall k
        ensures k in m <==> exists i :: IsDynamicAt(fields, i, k)
      {
        if k in m0 {
          var i :| IsDynamicAt(init, i, k);
          assert IsDynamicAt(fields, i, k);
        }
        if f.updatesForm && k == Key(f) {
          assert IsDynamicAt(fields, n, k);
        }
        if exists i :: IsDynamicAt(fields, i, k) {
          var i :| IsDynamicAt(fields, i, k);
          if i < n {
            assert IsDynamicAt(init, i, k);
            assert k in m0;
          } else {
            assert f.updatesForm && k == Key(f);
          }
          assert k in m;
        }
      }
    }
  }

  /** Each key of the computed map holds the default of the last field with that key. */
  lemma {:induction false} DynamicFieldMapValues(fields: seq<Field>)
    ensures HasDynamicValues(fields, DynamicFieldMap(fields))
    decreases |fields|
  {
    if fields != [] {
      var n := |fields| - 1;
      var init, f := fields[..n], fields[n];
      assert fields == init + [f];
      DynamicFieldMapSnoc(init, f);
      DynamicFieldMapValues(init);
      var m0, m := DynamicFieldMap(init), DynamicFieldMap(fields);
      forall k | k in m
        ensures exists i :: IsLastDynamic(fields, i, k) && m[k] == fields[i].defaultValue
      {
        if f.updatesForm && k == Key(f) {
          assert IsLastDynamic(fields, n, k);
        } else {
          assert k in m0 && m[k] == m0[k];
          var i :| IsLastDynamic(init, i, k) && m0[k] == init[i].defaultValue;
          forall j | i < j < |fields|
            ensures !IsDynamicAt(fields, j, k)
          {
            if j < n {
              assert !IsDynamicAt(init, j, k);
            }
          }
          assert IsLastDynamic(fields, i, k);
        }
      }
    }
  }

  /** The computed map is the dynamic-field map `IsDynamicFieldMap` describes. */
  lemma DynamicFieldMapSpec(fields: seq<Field>)
    ensures IsDynamicFieldMap(fields, DynamicFieldMap(fields))
  {
    DynamicFieldMapKeys(fields);
    DynamicFieldMapValues(fields);
  }

  /** The description pins the map down: two maps that fit it are equal. */
  lemma DynamicFieldMapUnique(fields: seq<Field>, m1: map<string, Value>, m2: map<string, Value>)
    requires IsDynamicFieldMap(fields, m1) && IsDynamicFieldMap(fields, m2)
    ensures m1 == m2
  {
    forall k | k in m1
      ensures k in m2 && m1[k] == m2[k]
    {
      var i1 :| IsLastDynamic(fields, i1, k) && m1[k] == fields[i1].defaultValue;
      var i2 :| IsLastDynamic(fields, i2, k) && m2[k] == fields[i2].defaultValue;
      assert !(i1 < i2) && !(i2 < i1);
    }
    assert m1.Keys == m2.Keys;
  }

  /** `getDynamicFields`: the dynamic-field map of the active config, or what it throws. */
  function DynamicFieldsOf(details: IssueConfig, action: string): (r: Result<map<string, Value>, FormError>)
    ensures r.Ok? <==> ActiveConfig(details, action).Ok?
    ensures r.Err? ==> r.error == ActiveConfig(details, action).error
    ensures r.Ok? ==> IsDynamicFieldMap(ActiveConfig(details, action).value, r.value)
  {
    match ActiveConfig(details, action)
    case Err(e) => Err(e)
    case Ok(fields) =>
      DynamicFieldMapSpec(fields);
      Ok(DynamicFieldMap(fields))
  }

  // ---------------------------------------------------------------------
  // Refetch query

  /** `{action, ...dynamicFieldValues}`: the spread comes last, so it wins. */
  function RefetchQuery(action: string, dynamicFieldValues: Option<map<string, Value>>): (q: map<string, Value>)
    ensures q.Keys == {"action"} + Spread(dynamicFieldValues).Keys
    ensures forall k :: k in Spread(dynamicFieldValues) ==> q[k] == Spread(dynamicFieldValues)[k]
    ensures "action" !in Spread(dynamicFieldValues) ==> q["action"] == Str(action)
  {
    map["action" := Str(action)] + Spread(dynamicFieldValues)
  }

  // ---------------------------------------------------------------------
  // The `in` operator

  /** Names every plain object inherits from Object.prototype. */
  const ObjectPrototypeMembers: set<string> := {
    "constructor", "hasOwnProperty", "isPrototypeOf", "propertyIsEnumerable",
    "toLocaleString", "toString", "valueOf", "__proto__",
    "__defineGetter__", "__defineSetter__", "__lookupGetter__", "__lookupSetter__"
  }

  /** `key in obj` for a plain object: own keys and inherited members alike. */
  predicate HasProperty(m: map<string, Value>, key: string) {
    key in m || key in ObjectPrototypeMembers
  }

  // ---------------------------------------------------------------------
  // Option loading for autocomplete fields

  /** `field.choices || []` as `{value, label}` options. */
  function StaticOptions(field: Field): (options: seq<Choice>)
    ensures field.choices.None? ==> options == []
    ensures field.choices.Some? ==> |options| == |field.choices.value|
    ensures field.choices.Some? ==> forall i :: 0 <= i < |options| ==>
              options[i] == Choice(field.choices.value[i].0, field.choices.value[i].1)
  {
    match field.choices
    case None => []
    case Some(cs) => seq(|cs|, i requires 0 <= i < |cs| => Choice(cs[i].0, cs[i].1))
  }

  /** The joiner before the query string: '&' exactly when the URL already has a '?'. */
  function Separator(url: string): (c: char)
    ensures c == '&' <==> '?' in url
    ensures c == '?' <==> '?' !in url
  {
    if '?' in url then '&' else '?'
  }

  /**
   * The lookup request: `(field.url || '') + separator` followed by the
   * query `{...base, field: field.name, query: input}`.
   */
  function LookupRequest(field: Field, input: string, base: map<string, Value>): (r: Request)
    ensures |r.path| == |field.url| + 1 && r.path[..|field.url|] == field.url
    ensures r.path[|field.url|] == '&' <==> '?' in field.url
    ensures r.path[|field.url|] == '?' <==> '?' !in field.url
    ensures r.query.Keys == base.Keys + {"field", "query"}
    ensures r.query["field"] == NameValue(field) && r.query["query"] == Str(input)
    ensures forall k :: k in base && k != "field" && k != "query" ==> r.query[k] == base[k]
  {
    Request(field.url + [Separator(field.url)], base["field" := NameValue(field)]["query" := Str(input)])
  }

  /** What a call to `getOptions` does: answer at once, or hand a lookup to the debounced loader. */
  datatype OptionsLoad = Immediate(options: seq<Choice>) | Lookup(request: Request)

  /**
   * `getOptions(field, input)`: empty input resolves with the static
   * choices and sends nothing; other input becomes a lookup whose query
   * starts from `base`.
   */
  function LoadOptions(field: Field, input: string, base: map<string, Value>): (r: OptionsLoad)
    ensures r.Immediate? <==> input == ""
    ensures r.Immediate? ==> r.options == StaticOptions(field)
    ensures r.Lookup? ==> r.request == LookupRequest(field, input, base)
  {
    if input == "" then Immediate(StaticOptions(field)) else Lookup(LookupRequest(field, input, base))
  }

  /** How the lookup's `fetch` ended. */
  datatype FetchOutcome = NetworkFailure | Response(ok: bool, body: seq<Choice>)

  /** How the `getOptions` promise settles. */
  datatype Settlement = Resolved(options: seq<Choice>) | Rejected

  /** A non-OK response resolves with no options; only a failed fetch rejects. */
  function SettleLookup(outcome: FetchOutcome): (s: Settlement)
    ensures s.Rejected? <==> outcome.NetworkFailure?
    ensures outcome.Response? && !outcome.ok ==> s == Resolved([])
    ensures outcome.Response? && outcome.ok ==> s == Resolved(outcome.body)
  {
    match outcome
    case NetworkFailure => Rejected
    case Response(ok, body) => Resolved(if ok then body else [])
  }

  /** The props `getFieldProps` gives a field. */
  datatype FieldProps =
    | NoFieldProps
    | AsyncSelectProps(async: bool, cache: bool, onSelectResetsInput: bool,
                       onCloseResetsInput: bool, onBlurResetsInput: bool, autoload: bool)

  /** Only a field with a URL gets the asynchronous loader, and it never caches. */
  function GetFieldProps(field: Field): (p: FieldProps)
    ensures p.AsyncSelectProps? <==> field.url != ""
    ensures p.AsyncSelectProps? ==> p.async && !p.cache && p.autoload
    ensures p.AsyncSelectProps? ==> !p.onSelectResetsInput && !p.onCloseResetsInput && !p.onBlurResetsInput
  {
    if field.url != "" then AsyncSelectProps(true, false, false, false, false, true) else NoFieldProps
  }

  // ---------------------------------------------------------------------
  // Initial form data

  /** The value `renderForm` gives a field that the initial data lacks. */
  function InitialValue(f: Field): (v: Value)
    ensures f.multiple ==> v == Str("")
    ensures !f.multiple ==> v == f.defaultValue
  {
    if f.multiple then Str("") else f.defaultValue
  }

  /** No field before `i` has the key of field `i`. */
  predicate IsFirstWithKey(fields: seq<Field>, i: int)
    requires 0 <= i < |fields|
  {
    forall j :: 0 <= j < i ==> Key(fields[j]) != Key(fields[i])
  }

  /**
   * `acc` is the initial data built from `init` and `fields`: every key of
   * `init` keeps its value, and every other field key gets the initial
   * value of the first field with that key.
   */
  ghost predicate IsInitialData(fields: seq<Field>, init: map<string, Value>, acc: map<string, Value>) {
    && (forall k :: k in acc <==> k in init || exists i :: 0 <= i < |fields| && Key(fields[i]) == k)
    && (forall k :: k in init ==> acc[k] == init[k])
    && (forall i :: 0 <= i < |fields| && Key(fields[i]) !in init && IsFirstWithKey(fields, i) ==>
          acc[Key(fields[i])] == InitialValue(fields[i]))
  }

  /** The description pins the initial data down. */
  lemma InitialDataUnique(fields: seq<Field>, init: map<string, Value>, a: map<string, Value>, b: map<string, Value>)
    requires IsInitialData(fields, init, a) && IsInitialData(fields, init, b)
    ensures a == b
  {
    forall k | k in a
      ensures k in b && a[k] == b[k]
    {
      if k !in init {
        var i :| 0 <= i < |fields| && Key(fields[i]) == k;
        var first := FirstIndexWithKey(fields, i);
        assert a[k] == InitialValue(fields[first]) == b[k];
      }
    }
    assert a.Keys == b.Keys;
  }

  /** The first index whose field shares the key of field `i`. */
  lemma FirstIndexWithKey(fields: seq<Field>, i: int) returns (first: int)
    requires 0 <= i < |fields|
    ensures 0 <= first <= i && Key(fields[first]) == Key(fields[i]) && IsFirstWithKey(fields, first)
  {
    first := 0;
    while Key(fields[first]) != Key(fields[i])
      invariant 0 <= first <= i
      invariant forall j :: 0 <= j < first ==> Key(fields[j]) != Key(fields[i])
      decreases i - first
    {
      first := first + 1;
    }
  }

  /** The `formFields.reduce(...)` of `renderForm`, over the accumulator's contents. */
  method ReduceInitialData(fields: seq<Field>, init: map<string, Value>) returns (acc: map<string, Value>)
    ensures IsInitialData(fields, init, acc)
  {
    acc := init;
    for n := 0 to |fields|
      invariant forall k :: k in acc <==> k in init || exists i :: 0 <= i < n && Key(fields[i]) == k
      invariant forall k :: k in init ==> acc[k] == init[k]
      invariant forall i :: 0 <= i < n && Key(fields[i]) !in init && IsFirstWithKey(fields, i) ==>
                  acc[Key(fields[i])] == InitialValue(fields[i])
    {
      var f := fields[n];
      if Key(f) !in acc {
        assert IsFirstWithKey(fields, n);
        acc := acc[Key(f) := InitialValue(f)];
      }
    }
  }

  /**
   * `renderForm`'s initial data: the accumulator is `initialData` itself
   * when one is given, so the caller's object is filled in place; otherwise
   * a fresh object.
   */
  method RenderFormInitialData(fields: seq<Field>, initialData: PlainObject?) returns (acc: PlainObject)
    modifies initialData
    ensures initialData != null ==> acc == initialData
    ensures initialData == null ==> fresh(acc)
    ensures IsInitialData(fields, if initialData != null then old(initialData.entries) else map[], acc.entries)
  {
    if initialData != null {
      acc := initialData;
    } else {
      acc := new PlainObject(map[]);
    }
    acc.entries := ReduceInitialData(fields, acc.entries);
  }

  // ---------------------------------------------------------------------
  // The controller's state

  /** The props `getDefaultFormProps` hands the form. */
  datatype BaseFormProps = BaseFormProps(footerClass: string, submitDisabled: bool)

  /**
   * The state of one external-issue form and the transitions on it. The
   * endpoint string is what the concrete form's `getEndPointString` gives;
   * `requests` records every refetch the form has sent.
   */
  class ExternalIssueFormModal {
    const endPointString: string
    var action: string
    var integrationDetails: IssueConfig
    var dynamicFieldValues: Option<map<string, Value>>
    var reloading: bool
    var error: bool
    var remainingRequests: nat
    var requests: seq<Request>

    /** `getDefaultState`; the loading flags come from the inherited default state. */
    constructor (endPointString: string, reloading: bool, error: bool, remainingRequests: nat)
      ensures this.endPointString == endPointString
      ensures action == "create" && integrationDetails == map[] && dynamicFieldValues == Some(map[])
      ensures this.reloading == reloading && this.error == error
      ensures this.remainingRequests == remainingRequests && requests == []
    {
      this.endPointString := endPointString;
      action := "create";
      integrationDetails := map[];
      dynamicFieldValues := Some(map[]);
      this.reloading := reloading;
      this.error := error;
      this.remainingRequests := remainingRequests;
      requests := [];
    }

    /** `refetchConfig`: one GET to the endpoint with the current action and dynamic values. */
    method RefetchConfig()
      modifies this`requests
      ensures requests == old(requests) + [Request(endPointString, RefetchQuery(action, dynamicFieldValues))]
    {
      requests := requests + [Request(endPointString, RefetchQuery(action, dynamicFieldValues))];
    }

    /** `getDynamicFields(data)`: from `data` when given, else from the stored config. */
    function GetDynamicFields(data: Option<IssueConfig>): (r: Result<map<string, Value>, FormError>)
      reads this
      ensures r.Err? <==> ActiveConfig(if data.Some? then data.value else integrationDetails, action).Err?
      ensures r.Err? ==> r.error == ActiveConfig(if data.Some? then data.value else integrationDetails, action).error
      ensures r.Ok? ==> IsDynamicFieldMap(ActiveConfig(if data.Some? then data.value else integrationDetails, action).value, r.value)
    {
      DynamicFieldsOf(if data.Some? then data.value else integrationDetails, action)
    }

    /**
     * `onRequestSuccess`: recompute the dynamic values from the new config
     * only for the config request and only when no value map is held.
     */
    method OnRequestSuccess(stateKey: string, data: IssueConfig) returns (err: Option<FormError>)
      modifies this`dynamicFieldValues
      ensures stateKey != "integrationDetails" || old(dynamicFieldValues).Some? ==>
                err == None && dynamicFieldValues == old(dynamicFieldValues)
      ensures stateKey == "integrationDetails" && old(dynamicFieldValues).None? ==>
                match DynamicFieldsOf(data, action)
                case Ok(m) => err == None && dynamicFieldValues == Some(m)
                case Err(e) => err == Some(e) && dynamicFieldValues == old(dynamicFieldValues)
    {
      err := None;
      if stateKey == "integrationDetails" && dynamicFieldValues.None? {
        match GetDynamicFields(Some(data))
        case Ok(m) => dynamicFieldValues := Some(m);
        case Err(e) => err := Some(e);
      }
    }

    /**
     * `onFieldChange`: a change to a dynamic field stores the value, marks
     * the form as reloading and refetches; any other label changes nothing.
     * When the active config cannot be found the call throws and changes
     * nothing.
     */
    method OnFieldChange(fieldName: string, value: Value) returns (err: Option<FormError>)
      modifies this`dynamicFieldValues, this`reloading, this`error, this`remainingRequests, this`requests
      ensures old(GetDynamicFields(None)).Err? ==>
                err == Some(old(GetDynamicFields(None)).error)
      ensures old(GetDynamicFields(None)).Err? || !HasProperty(old(GetDynamicFields(None)).value, fieldName) ==>
                && dynamicFieldValues == old(dynamicFieldValues) && reloading == old(reloading)
                && error == old(error) && remainingRequests == old(remainingRequests)
                && requests == old(requests)
      ensures old(GetDynamicFields(None)).Ok? ==> err == None
      ensures old(GetDynamicFields(None)).Ok? && HasProperty(old(GetDynamicFields(None)).value, fieldName) ==>
                && dynamicFieldValues == Some(Spread(old(dynamicFieldValues))[fieldName := value])
                && reloading && !error && remainingRequests == 1
                && DefaultFormProps().submitDisabled
                && requests == old(requests) + [Request(endPointString, RefetchQuery(action, dynamicFieldValues))]
    {
      err := None;
      match GetDynamicFields(None)
      case Err(e) =>
        err := Some(e);
      case Ok(dynamicFields) =>
        if HasProperty(dynamicFields, fieldName) {
          dynamicFieldValues := Some(Spread(dynamicFieldValues)[fieldName := value]);
          reloading, error, remainingRequests := true, false, 1;
          RefetchConfig();
        }
    }

    /** `handleClick`: the tabs store their action. */
    method HandleClick(tabAction: string)
      requires IsTabAction(tabAction)
      modifies this`action
      ensures action == tabAction
    {
      action := tabAction;
    }

    /** `getDefaultFormProps`: submission is disabled exactly while reloading. */
    function DefaultFormProps(): (p: BaseFormProps)
      reads this
      ensures p.submitDisabled <==> reloading
      ensures p.footerClass == "modal-footer"
    {
      BaseFormProps("modal-footer", reloading)
    }

    /** `getOptions`: lookups start from the current dynamic values. */
    function GetOptions(field: Field, input: string): (r: OptionsLoad)
      reads this
      ensures r.Immediate? <==> input == ""
      ensures r.Immediate? ==> r.options == StaticOptions(field)
      ensures r.Lookup? ==> r.request.path == field.url + [Separator(field.url)]
      ensures r.Lookup? ==> r.request.query.Keys == Spread(dynamicFieldValues).Keys + {"field", "query"}
      ensures r.Lookup? ==> r.request.query["field"] == NameValue(field) && r.request.query["query"] == Str(input)
      ensures r.Lookup? ==> forall k :: k in Spread(dynamicFieldValues) && k != "field" && k != "query" ==>
                r.request.query[k] == Spread(dynamicFieldValues)[k]
    {
      LoadOptions(field, input, Spread(dynamicFieldValues))
    }
  }
}

=== FILE: group_issue_form.dfy ===
/**
 * The issue page's external-issue form (components/group/externalIssueForm.tsx):
 * what the Create and Link tabs select, where the form loads its config
 * from and where it submits to.
 */
module GroupIssueForm {
  import opened Common
  import ExternalIssues

  /** `MESSAGES_BY_ACTION` */
  const MessagesByAction: map<string, string> :=
    map["link" := "Successfully linked issue.", "create" := "Successfully created issue."]

  /** `SUBMIT_LABEL_BY_ACTION` */
  const SubmitLabelByAction: map<string, string> :=
    map["link" := "Link Issue", "create" := "Create Issue"]

  /** The success message for an action; no entry for any other action the form can hold. */
  function SuccessMessage(action: string): (r: Option<string>)
    ensures r.Some? <==> ExternalIssues.IsTabAction(action)
    ensures action == "link" ==> r == Some("Successfully linked issue.")
    ensures action == "create" ==> r == Some("Successfully created issue.")
  {
    if action in MessagesByAction then Some(MessagesByAction[action]) else None
  }

  /** The submit button's label for an action; no entry for any other action the form can hold. */
  function SubmitLabel(action: string): (r: Option<string>)
    ensures r.Some? <==> ExternalIssues.IsTabAction(action)
    ensures action == "link" ==> r == Some("Link Issue")
    ensures action == "create" ==> r == Some("Create Issue")
  {
    if action in SubmitLabelByAction then Some(SubmitLabelByAction[action]) else None
  }

  datatype HttpMethod = Post | Put

  /** Creating posts a new issue; every other action puts a link. */
  function ApiMethod(action: string): (m: HttpMethod)
    ensures m == Post <==> action == "create"
    ensures m == Put <==> action != "create"
  {
    if action == "create" then Post else Put
  }

  /** `getEndPointString`: the group's integration path. */
  function EndPointString(groupId: string, integrationId: string): (s: string)
    ensures |s| == |groupId| + |integrationId| + 23
    ensures s[..8] == "/groups/" && s[|s| - 1] == '/'
    ensures s[8..8 + |groupId|] == groupId
    ensures s[8 + |groupId|..22 + |groupId|] == "/integrations/"
    ensures s[22 + |groupId|..|s| - 1] == integrationId
  {
    "/groups/" + groupId + "/integrations/" + integrationId + "/"
  }

  /** `getEndpoints`: the config is loaded from the same path, for the current action. */
  function Endpoints(groupId: string, integrationId: string, action: string): (r: seq<(string, string)>)
    ensures |r| == 1 && r[0].0 == "integrationDetails"
    ensures r[0].1 == EndPointString(groupId, integrationId) + "?action=" + action
  {
    [("integrationDetails", EndPointString(groupId, integrationId) + "?action=" + action)]
  }

  /** The props `getFormProps` hands the form. */
  datatype FormProps = FormProps(
    footerClass: string,
    submitDisabled: bool,
    submitLabel: Option<string>,
    apiEndpoint: string,
    apiMethod: HttpMethod)

  /** `getFormProps`: the shared defaults plus the action's label, endpoint and method. */
  function GetFormProps(action: string, reloading: bool, groupId: string, integrationId: string): (p: FormProps)
    ensures p.footerClass == "modal-footer" && (p.submitDisabled <==> reloading)
    ensures p.submitLabel == SubmitLabel(action)
    ensures p.apiMethod == ApiMethod(action)
    ensures Endpoints(groupId, integrationId, action)[0].1 == p.apiEndpoint + "?action=" + action
  {
    FormProps("modal-footer", reloading, SubmitLabel(action), EndPointString(groupId, integrationId), ApiMethod(action))
  }

  datatype Tab = CreateTab | LinkTab

  /** The action a tab stores through `handleClick`. */
  function TabAction(tab: Tab): (a: string)
    ensures ExternalIssues.IsTabAction(a)
    ensures tab == CreateTab ==> a == "create"
    ensures tab == LinkTab ==> a == "link"
  {
    match tab
    case CreateTab => "create"
    case LinkTab => "link"
  }

  /** A tab is drawn active when the current action is its own. */
  function IsActive(tab: Tab, action: string): (b: bool)
    ensures b <==> action == TabAction(tab)
  {
    match tab
    case CreateTab => action == "create"
    case LinkTab => action == "link"
  }

  /** After a tab is clicked, it and only it is active. */
  lemma ClickedTabIsTheOnlyActive(clicked: Tab, other: Tab)
    ensures IsActive(other, TabAction(clicked)) <==> other == clicked
  {
  }

  /**
   * `renderBody` picks its config through `getConfigName`, so once the Link
   * tab stores 'link' it throws, although that action has its own label,
   * message and method.
   */
  lemma LinkTabCannotRender(details: ExternalIssues.IssueConfig)
    ensures ExternalIssues.ActiveConfig(details, TabAction(LinkTab)) == Err(IllegalAction)
    ensures SubmitLabel(TabAction(LinkTab)) == Some("Link Issue")
    ensures SuccessMessage(TabAction(LinkTab)) == Some("Successfully linked issue.")
    ensures ApiMethod(TabAction(LinkTab)) == Put
  {
    ExternalIssues.LinkActionIsIllegal();
  }

  /** The Create tab selects the create config whenever the document has one. */
  lemma CreateTabRenders(details: ExternalIssues.IssueConfig)
    requires "createIssueConfig" in details
    ensures ExternalIssues.ActiveConfig(details, TabAction(CreateTab)) == Ok(details["createIssueConfig"])
  {
  }
}

=== FILE: snooze.dfy ===
/**
 * The snooze button's confirmation modal (components/issues/snoozeAction.tsx):
 * one open flag, guarded by `disabled`, and the fixed list of durations.
 */
module Snooze {
  import opened Common

  /** `SnoozeTimes`, in minutes. */
  datatype SnoozeTime = ThirtyMinutes | TwoHours | TwentyFourHours

  function Minutes(t: SnoozeTime): nat {
    match t
    case ThirtyMinutes => 30
    case TwoHours => 60 * 2
    case TwentyFourHours => 60 * 24
  }

  /** The modal's choices, top to bottom; "Forever" passes no duration. */
  const SnoozeChoices: seq<Option<SnoozeTime>> :=
    [Some(ThirtyMinutes), Some(TwoHours), Some(TwentyFourHours), None]

  /** The duration a choice forwards, in minutes. */
  function ChoiceMinutes(choice: Option<SnoozeTime>): Option<nat> {
    match choice
    case Some(t) => Some(Minutes(t))
    case None => None
  }

  /** The modal offers 30 minutes, 2 hours, 24 hours and forever, in that order. */
  lemma OfferedDurations()
    ensures |SnoozeChoices| == 4
    ensures forall i :: 0 <= i < 4 ==>
              ChoiceMinutes(SnoozeChoices[i]) == [Some(30), Some(120), Some(1440), None][i]
  {
  }

  /** The open flag after a click on the snooze link. */
  function Toggled(isModalOpen: bool, disabled: bool): bool {
    if disabled then isModalOpen else !isModalOpen
  }

  /** Two clicks restore the flag, disabled or not. */
  lemma ToggleTwiceRestores(isModalOpen: bool, disabled: bool)
    ensures Toggled(Toggled(isModalOpen, disabled), disabled) == isModalOpen
  {
  }

  /** The component: `snoozed` records every duration forwarded to `props.onSnooze`. */
  class SnoozeAction {
    const disabled: bool
    var isModalOpen: bool
    var snoozed: seq<Option<SnoozeTime>>

    /** The modal starts closed. */
    constructor (disabled: bool)
      ensures this.disabled == disabled
      ensures !isModalOpen && snoozed == []
    {
      this.disabled := disabled;
      isModalOpen := false;
      snoozed := [];
    }

    /** `toggleModal`: a disabled button leaves the flag alone; otherwise it flips. */
    method ToggleModal()
      modifies this`isModalOpen
      ensures disabled ==> isModalOpen == old(isModalOpen)
      ensures !disabled ==> isModalOpen == !old(isModalOpen)
      ensures isModalOpen == Toggled(old(isModalOpen), disabled)
    {
      if disabled {
        return;
      }
      isModalOpen := !isModalOpen;
    }

    /** `closeModal`: always closed afterwards, so closing twice is closing once. */
    method CloseModal()
      modifies this`isModalOpen
      ensures !isModalOpen
    {
      isModalOpen := false;
    }

    /** `onSnooze`: forward exactly the chosen duration, then close. */
    method OnSnooze(duration: Option<SnoozeTime>)
      modifies this`isModalOpen, this`snoozed
      ensures snoozed == old(snoozed) + [duration]
      ensures !isModalOpen
    {
      snoozed := snoozed + [duration];
      CloseModal();
    }
  }
}

=== FILE: ticket_rule.dfy ===
/**
 * The issue-alert ticket form (views/settings/projectAlerts/issueEditor/
 * ticketRuleForm.tsx): it lists the configured fields, whitelists what the
 * user submits, loads options from the alert rule's project and issue type,
 * and puts two read-only fields in front of the configured ones.
 */
module TicketRule {
  import opened Common
  import ExternalIssues

  /** The read-only title field `addFields` puts first. */
  const TitleField: Field := Field(
    Some("title"), "Title", "string", Str("This will be the same as the Sentry Issue."),
    None, "", false, false, false, true)

  /** The read-only description field `addFields` puts second. */
  const DescriptionField: Field := Field(
    Some("description"), "Description", "string",
    Str("This will be generated from the Sentry Issue details."),
    None, "", false, false, false, true)

  /** The names of the fields that have one, in order. */
  function NamesOf(fields: seq<Field>): seq<string>
    decreases |fields|
  {
    if fields == [] then []
    else
      var last := fields[|fields| - 1];
      NamesOf(fields[..|fields| - 1]) + (if last.name.Some? then [last.name.value] else [])
  }

  /** A name is listed exactly when some field carries it, and no more names than fields. */
  lemma {:induction false} NamesOfSpec(fields: seq<Field>)
    ensures |NamesOf(fields)| <= |fields|
    ensures forall x :: x in NamesOf(fields) <==> exists i :: 0 <= i < |fields| && fields[i].name == Some(x)
    decreases |fields|
  {
    if fields != [] {
      var n := |fields| - 1;
      var init := fields[..n];
      assert fields == init + [fields[n]];
      NamesOfSpec(init);
      forall x
        ensures x in NamesOf(fields) <==> exists i :: 0 <= i < |fields| && fields[i].name == Some(x)
      {
        if exists i :: 0 <= i < |fields| && fields[i].name == Some(x) {
          var i :| 0 <= i < |fields| && fields[i].name == Some(x);
          if i < n {
            assert init[i].name == Some(x);
          }
        }
        if x in NamesOf(init) {
          var i :| 0 <= i < |init| && init[i].name == Some(x);
          assert fields[i].name == Some(x);
        }
      }
    }
  }

  /** When every field is named, the names are the fields' names in order. */
  lemma {:induction false} NamesOfAllNamed(fields: seq<Field>)
    requires forall i :: 0 <= i < |fields| ==> fields[i].name.Some?
    ensures |NamesOf(fields)| == |fields|
    ensures forall i :: 0 <= i < |fields| ==> NamesOf(fields)[i] == fields[i].name.value
    decreases |fields|
  {
    if fields != [] {
      var n := |fields| - 1;
      NamesOfAllNamed(fields[..n]);
    }
  }

  /**
   * `cleanData`'s result, stated on sets: the submitted entries whose key
   * is a field name, plus `integration` from the rule when it has one and
   * the data does not supply a whitelisted one.
   */
  function Cleaned(names: seq<string>, instance: map<string, Value>, data: map<string, Value>): (r: map<string, Value>)
    ensures r.Keys <= set x | x in names + ["integration"]
    ensures forall k :: k in r <==> (k in data && k in names) || (k == "integration" && "integration" in instance)
    ensures forall k :: k in data && k in names ==> r[k] == data[k]
    ensures "integration" in instance && !("integration" in data && "integration" in names) ==>
              r["integration"] == instance["integration"]
  {
    map k | k in data.Keys + instance.Keys && ((k in data && k in names) || (k == "integration" && k in instance)) ::
      if k in data && k in names then data[k] else instance[k]
  }

  /** The project and issue type the rule was saved with: the base of every option lookup. */
  function LookupBase(instance: map<string, Value>): (base: map<string, Value>)
    ensures base.Keys == {"project", "issuetype"}
    ensures base["project"] == Get(instance, "project") && base["issuetype"] == Get(instance, "issuetype")
  {
    map["project" := Get(instance, "project"), "issuetype" := Get(instance, "issuetype")]
  }

  /** `getEndPointString` for an organization slug and the rule's integration, as text. */
  function EndPointString(orgSlug: string, integration: string): (s: string)
    ensures |s| == |orgSlug| + |integration| + 30
    ensures s[..15] == "/organizations/" && s[|s| - 1] == '/'
    ensures s[15..15 + |orgSlug|] == orgSlug
    ensures s[15 + |orgSlug|..29 + |orgSlug|] == "/integrations/"
    ensures s[29 + |orgSlug|..|s| - 1] == integration
  {
    "/organizations/" + orgSlug + "/integrations/" + integration + "/"
  }

  /** `getEndpoints`: the config is always loaded for the 'create' action. */
  function Endpoints(orgSlug: string, integration: string): (r: seq<(string, string)>)
    ensures |r| == 1 && r[0].0 == "integrationDetails"
    ensures r[0].1 == EndPointString(orgSlug, integration) + "?action=create"
  {
    [("integrationDetails", EndPointString(orgSlug, integration) + "?action=create")]
  }

  /** The array `addFields` grows in place. */
  class FieldList {
    var items: seq<Field>

    constructor (items: seq<Field>)
      ensures this.items == items
    {
      this.items := items;
    }
  }

  /**
   * The form's own state on top of the shared controller: whether the modal
   * is shown, and every payload handed to `onSubmitAction`.
   */
  class TicketRuleForm {
    const formFields: seq<Field>
    const instance: PlainObject
    const form: ExternalIssues.ExternalIssueFormModal
    var showModal: bool
    var submitted: seq<map<string, Value>>

    /** `getDefaultState`: the modal is closed and the controller starts on 'create'. */
    constructor (formFields: seq<Field>, instance: PlainObject, orgSlug: string, integration: string,
                 reloading: bool, error: bool, remainingRequests: nat)
      ensures this.formFields == formFields && this.instance == instance
      ensures !showModal && submitted == []
      ensures fresh(form) && form.endPointString == EndPointString(orgSlug, integration)
      ensures form.action == "create" && form.dynamicFieldValues == Some(map[])
    {
      this.formFields := formFields;
      this.instance := instance;
      form := new ExternalIssues.ExternalIssueFormModal(
        EndPointString(orgSlug, integration), reloading, error, remainingRequests);
      showModal := false;
      submitted := [];
    }

    /** `openModal` */
    method OpenModal()
      modifies this`showModal
      ensures showModal
    {
      showModal := true;
    }

    /** `closeModal` */
    method CloseModal()
      modifies this`showModal
      ensures !showModal
    {
      showModal := false;
    }

    /** `getNames`: the `for…in` loop over the configured fields. */
    method GetNames() returns (names: seq<string>)
      ensures names == NamesOf(formFields)
    {
      names := [];
      for i := 0 to |formFields|
        invariant names == NamesOf(formFields[..i])
      {
        assert formFields[..i + 1] == formFields[..i] + [formFields[i]];
        if formFields[i].name.Some? {
          names := names + [formFields[i].name.value];
        }
      }
      assert formFields[..|formFields|] == formFields;
    }

    /** `cleanData`: copy `integration` from the rule, then every whitelisted entry. */
    method CleanData(data: map<string, Value>) returns (formData: map<string, Value>)
      ensures formData == Cleaned(NamesOf(formFields), instance.entries, data)
    {
      var names := GetNames();
      formData := map[];
      if "integration" in instance.entries {
        formData := formData["integration" := instance.entries["integration"]];
      }
      var rest := data.Keys;
      while rest != {}
        invariant rest <= data.Keys
        invariant forall k :: k in formData <==>
                    (k in data && k !in rest && k in names) || (k == "integration" && "integration" in instance.entries)
        invariant forall k :: k in data && k !in rest && k in names ==> formData[k] == data[k]
        invariant "integration" in formData && !("integration" in data && "integration" !in rest && "integration" in names) ==>
                    formData["integration"] == instance.entries["integration"]
        decreases rest
      {
        var k :| k in rest;
        if k in names {
          formData := formData[k := data[k]];
        }
        rest := rest - {k};
      }
      var expected := Cleaned(names, instance.entries, data);
      assert formData.Keys == expected.Keys;
    }

    /** `onFormSubmit`: hand the cleaned data to `onSubmitAction`, then close the modal. */
    method OnFormSubmit(data: map<string, Value>)
      modifies this`submitted, this`showModal
      ensures submitted == old(submitted) + [Cleaned(NamesOf(formFields), instance.entries, data)]
      ensures !showModal
    {
      var formData := CleanData(data);
      submitted := submitted + [formData];
      CloseModal();
    }

    /** `getOptions`: lookups carry the rule's project and issue type, never the dynamic values. */
    function GetOptions(field: Field, input: string): (r: ExternalIssues.OptionsLoad)
      reads this, instance
      ensures r.Lookup? <==> input != ""
      ensures r.Lookup? ==> r.request.query.Keys == {"project", "issuetype", "field", "query"}
      ensures r.Lookup? ==> r.request.query["project"] == Get(instance.entries, "project")
      ensures r.Lookup? ==> r.request.query["issuetype"] == Get(instance.entries, "issuetype")
      ensures r.Lookup? ==> r.request.path == field.url + [ExternalIssues.Separator(field.url)]
      ensures r.Lookup? ==> r.request.query["field"] == NameValue(field) && r.request.query["query"] == Str(input)
      ensures r.Immediate? ==> r.options == ExternalIssues.StaticOptions(field)
    {
      ExternalIssues.LoadOptions(field, input, LookupBase(instance.entries))
    }

    /** `addFields`: `unshift` the description, then the title. */
    method AddFields(list: FieldList)
      modifies list
      ensures list.items == [TitleField, DescriptionField] + old(list.items)
    {
      list.items := [DescriptionField] + list.items;
      list.items := [TitleField] + list.items;
    }

    /**
     * The non-visual part of `render`: copy the field values into a fresh
     * array, put the two read-only fields in front, and build the initial
     * data, which fills in the rule's own object.
     */
    method Render() returns (fields: seq<Field>)
      modifies instance
      ensures fields == [TitleField, DescriptionField] + formFields
      ensures ExternalIssues.IsInitialData(fields, old(instance.entries), instance.entries)
    {
      var list := new FieldList(formFields);
      AddFields(list);
      fields := list.items;
      var acc := ExternalIssues.RenderFormInitialData(fields, instance);
    }
  }

  /**
   * `addFields` grows a copy of the configured fields, while `getNames`
   * reads the configured fields themselves. So unless a configured field is
   * itself named 'title' or 'description', `cleanData` drops the values of
   * the two read-only fields from what it submits.
   */
  lemma AddedFieldsAreNotSubmitted(fields: seq<Field>, instance: map<string, Value>, data: map<string, Value>)
    requires forall i :: 0 <= i < |fields| ==> fields[i].name != Some("title") && fields[i].name != Some("description")
    ensures "title" !in Cleaned(NamesOf(fields), instance, data)
    ensures "description" !in Cleaned(NamesOf(fields), instance, data)
  {
    NamesOfSpec(fields);
  }

  /** Names distribute over concatenation. */
  lemma {:induction false} NamesOfAppend(a: seq<Field>, b: seq<Field>)
    ensures NamesOf(a + b) == NamesOf(a) + NamesOf(b)
    decreases |b|
  {
    if b == [] {
      assert a + b == a;
    } else {
      var n := |b| - 1;
      assert (a + b)[..|a + b| - 1] == a + b[..n];
      NamesOfAppend(a, b[..n]);
    }
  }
}
